=== FILE: README.md ===
# Doppler CLI: secrets and enclave-setup command rules, in Dafny

This project models the decision logic of two command files of the Doppler
command-line client: `pkg/cmd/secrets.go` (the `secrets set`, `secrets delete`
and `secrets download` commands) and `pkg/cmd/enclave_setup.go` (the
`enclave setup` command). The network calls the modelled decisions depend
on are parameters, as are the fallback/cache fetch, path resolution,
encryption and the file write: each is a function-typed field of a
`Collaborators` or `SetupApi` record, or a value in one. The answers to
prompts are parameters too: the project and config answers are fields of
`SetupApi`, and the delete confirmation is the `confirmed` parameter of
`DeleteSecrets`. What each prompt shows (message, options, default) is
modelled. Printing is not modelled, except the two outputs named under
"Left out", and neither are the other calls listed there. Each command is a
method. Where the command's own decisions matter, its outputs record them: which fallback/cache fetch
`DownloadSecrets` made, whether `DeleteSecrets` asked for confirmation, and
which lists and prompts `Setup` used. An error that would end the process
becomes a `Failure(message)` or `Failed(message)` result.

Modules:

- `Wrappers` holds `Option` and `Result`.
- `Strings` models Go's `strings.Split` on one character, `strings.Join` and
  `strings.HasSuffix`. It proves that joining the pieces of a split with
  the separator gives back the input, that no piece of a split holds the
  separator, and where each part sits inside a join.
- `SecretArgs` covers `secrets set` and `secrets delete`.
  - `set` with exactly two arguments reads them as `KEY value`, verbatim.
  - Otherwise each argument is split on `=`. The key is the text before the
    first `=`. The value is the text between the first and the second `=`, or
    `""` when there is none.
  - The key list has one entry per argument. In the map, a later duplicate
    key overwrites an earlier one.
  - `set K=a=b` stores `K` as `a`. The model keeps this behaviour.
  - `set A=1 B=2` stores a secret named `A=1` with value `B=2`. This
    includes the command's own help example; see "Findings".
- `SecretsDownload` covers `secrets download`.
  - It combines the fallback and cache flags into a policy.
  - It resolves `--format` against the format list. An unknown format is an
    error that lists every valid name.
  - It checks both passphrases.
  - It decides what the fallback/cache fetch receives. Formats other than
    JSON switch fallback and cache off.
  - It picks the output path, and no file is written unless encryption and
    the write both succeed.
- `EnclaveSetup` covers `enclave setup`.
  - A project or config that comes from a flag or from the environment is
    used verbatim.
  - Otherwise it is chosen from the API's list through a prompt. Project
    options are `Name (ID)`. The default is the last project whose ID equals
    the previously configured one. A chosen option maps back to the first
    project whose `(ID)` ends it.
  - The previous config is the default only when the configured project is
    re-used.
  - The saved configuration has exactly the two enclave keys.

The secrets-format enumeration lives in a package that is not part of this
model. A `Format` is therefore a record of its name and its default output
file. The list of formats, the JSON value and the type's zero value are
parameters (`FormatCatalog`).

The help text of `--fallback-only` (pkg/cmd/secrets.go:407) says that it
implies `--fallback-readonly`. `downloadSecrets` does not apply this: it reads
both flags unchanged (pkg/cmd/secrets.go:259-260) and passes them on
unchanged to `fetchSecrets` (pkg/cmd/secrets.go:307). The model follows the
code. Whether `fetchSecrets` applies the implication is not part of this
model.

## Model

| member | source | states |
|---|---|---|
| `SecretArgs.KeyIsTextBeforeFirstEquals` | pkg/cmd/secrets.go:175-176 | the key of a `KEY=value` argument is exactly the text before its first `=`, and is the whole argument iff there is no `=` |
| `SecretArgs.ValueIsTextBetweenFirstTwoEquals` | pkg/cmd/secrets.go:175-181 | the value is the text between the first and the second `=` (anything after a second `=` is dropped), and `""` when the argument has no `=` |
| `SecretArgs.ParseFormatted` | pkg/cmd/secrets.go:173-181 | parsing `key + "=" + value` gives back key and value when neither contains `=` |
| `SecretArgs.AssignmentsKeys` | pkg/cmd/secrets.go:174-181 | the request map's keys are exactly the keys of the arguments |
| `SecretArgs.AssignmentsLastWins` | pkg/cmd/secrets.go:174-181 | a key maps to the value of the last argument naming it (later duplicates overwrite) |
| `SecretArgs.AssignmentsAreStrings` | pkg/cmd/secrets.go:177-181 | every value in the `set` map is a string, never null |
| `SecretArgs.ParseAssignments` | pkg/cmd/secrets.go:172-182 | one key per argument in argument order, each the text before its first `=`, duplicates included, and exactly the map `Assignments` builds |
| `SecretArgs.SetSecrets` | pkg/cmd/secrets.go:163-183 | two arguments: keys `[args[0]]` and the single entry `args[0] -> args[1]`, no splitting; otherwise one key per argument in argument order, duplicates included, and the map built by assigning each argument in turn |
| `SecretArgs.SetSecretsHelpExample` | pkg/cmd/secrets.go:64-65 | the help example `set API_KEY=123 CRYPTO_KEY=456` sets the single key `API_KEY=123` to `CRYPTO_KEY=456`, and neither `API_KEY` nor `CRYPTO_KEY` |
| `SecretArgs.SetSecretsIntended` | pkg/cmd/secrets.go:163-183 | as `SetSecrets`, but two arguments are read as `KEY value` only when the first has no `=`; arguments that all contain `=` are always parsed as assignments |
| `SecretArgs.HelpExampleAssignments` | pkg/cmd/secrets.go:64-65 | the two assignments of the help example give the map `API_KEY -> 123, CRYPTO_KEY -> 456` |
| `SecretArgs.SetSecretsIntendedHelpExample` | pkg/cmd/secrets.go:64-65 | with the corrected rule the help example sets the keys `API_KEY` and `CRYPTO_KEY` to `123` and `456` |
| `SecretArgs.DeleteSecrets` | pkg/cmd/secrets.go:235-239 | the confirmation is asked for iff `--yes` is absent; a request is built iff `--yes` or the confirmation is given; its keys are exactly the arguments, each mapped to null |
| `SecretsDownload.ComposePolicy` | pkg/cmd/secrets.go:257-261 | cache enabled implies fallback enabled; fallback iff not `--no-fallback`; cache iff neither `--no-fallback` nor `--no-cache`; exit-on-write-failure iff not `--no-exit-on-write-failure`; read-only and fallback-only pass through |
| `SecretsDownload.FirstNamed` | pkg/cmd/secrets.go:274-280 | the index found is the first format with the given name, and none means no format has it |
| `SecretsDownload.LookupFormat` | pkg/cmd/secrets.go:265-289 | an empty format string gives JSON when JSON output is on and the zero value otherwise; a non-empty one succeeds iff some format has that name, and then gives the first such format; failure carries the message listing the valid names |
| `SecretsDownload.InvalidFormatMessageListsAll` | pkg/cmd/secrets.go:282-287 | every valid format name occurs in the invalid-format error message |
| `SecretsDownload.ResolveFormat` | pkg/cmd/secrets.go:265-289 | the lookup loop with its early break and name collection computes exactly `LookupFormat` |
| `SecretsDownload.DownloadSecrets` | pkg/cmd/secrets.go:252-365 | an unknown format and then an empty fallback passphrase stop the command before any fetch; the fallback/cache fetch is made exactly for JSON, with the composed policy, the fallback paths only if fallback is enabled and the metadata path only if cache is enabled; other formats switch fallback and cache off. After that the outcome is fixed step by step: a failed fetch fails with its error; `--no-file` prints the fetched body; an unresolvable path argument fails with "Unable to parse download file path"; an empty passphrase fails with "invalid passphrase"; a failed encryption fails with its message and writes nothing; a failed write fails with "Unable to write the secrets file"; otherwise the encrypted body is saved. The path is `OutputPath`: the resolved first argument, or `.` joined with the format's default file name |
| `SecretsDownload.Deliver` | pkg/cmd/secrets.go:332-362 | with `--no-file` the body is printed; otherwise the outcome is the first failing step among path resolution, the passphrase check, encryption and the write, each with its message, or the save of the encrypted body at `OutputPath` |
| `EnclaveSetup.IdForLabel` | pkg/cmd/enclave_setup.go:139-145 | the ID returned belongs to the first project, in list order, whose `(ID)` ends the chosen option, or is `""` when no project's does |
| `EnclaveSetup.OwnLabelMatchesOnlyOwnId` | pkg/cmd/enclave_setup.go:113-140 | when no ID contains `(`, the option of project p ends with `(ID)` of project q iff the two IDs are equal |
| `EnclaveSetup.IdForOwnLabel` | pkg/cmd/enclave_setup.go:112-145 | when no ID contains `(`, choosing a project's option gives back that project's ID |
| `EnclaveSetup.LastWithId` | pkg/cmd/enclave_setup.go:112-118 | the project whose option becomes the default is the last one whose ID equals the configured one, and there is none exactly when no ID equals it |
| `EnclaveSetup.EnvironmentNoticeInjective` | pkg/cmd/enclave_setup.go:182-184 | the environment notice determines the variable it names |
| `EnclaveSetup.ProjectOptions` | pkg/cmd/enclave_setup.go:110-119 | one `Name (ID)` option per project, in list order; the default is the option of the project `LastWithId` finds for the configured ID, and none when it finds none |
| `EnclaveSetup.ProjectIdForChoice` | pkg/cmd/enclave_setup.go:139-145 | the lookup loop with its early exit returns exactly `IdForLabel` of the chosen option |
| `EnclaveSetup.SelectProject` | pkg/cmd/enclave_setup.go:109-146 | with `--no-prompt`: no prompt, and the no-prompt error. Otherwise the prompt carries the options and default above; a prompt error is returned as is; the answer maps to `IdForLabel` |
| `EnclaveSetup.SelectConfig` | pkg/cmd/enclave_setup.go:148-180 | with `--no-prompt`: no prompt, and the no-prompt error. Otherwise the options are the config names in order; the previous config is the default only if the configured project is re-used and a config has that non-empty name; the answer is returned as is |
| `EnclaveSetup.ChoosingOwnOptionSelectsIt` | pkg/cmd/enclave_setup.go:56-67 | when no ID contains `(`, answering the project prompt with a listed project's own option selects that project's ID (when it is non-empty) |
| `EnclaveSetup.Setup` | pkg/cmd/enclave_setup.go:36-98 | the result is fully determined: the project selection (`ProjectSelection`) is the flag or environment value verbatim, or else, in order, the project-list error, "you do not have access to any projects", the `--no-prompt` error, the prompt error, "Invalid project" for an answer naming no project, or the ID `IdForLabel` finds; the config selection (`ConfigSelection`) for the selected project is the same with the config list, "your project does not have any configs", the config `--no-prompt` error, the prompt error, "Invalid config" for an empty answer, or the answer; the first failure is the result, and when both succeed exactly the two enclave keys are saved, set to the two selections. The project list is asked for only for an `OtherSource` project, and the config list only for an `OtherSource` config, for the selected project. The project prompt is shown whenever there is a non-empty list and prompting is on; it lists every project, and its default is `DefaultProjectOption` of the list and the scope's saved project. The config prompt lists the config names; its default is the scope's saved config exactly when the selected project is the configured one and a listed config has that non-empty name. A prompt is shown exactly when there is a non-empty list to choose from and prompting is on, so never with `--no-prompt`, and it carries the source's message. The notices are exactly the environment notices, in order: the project's when the project comes from the environment, then the config's when the project selection succeeded and the config comes from the environment |

## Left out

- The fallback/cache fetch (`fetchSecrets`) is the parameter `fetchJson`. The same parameter also covers the `json.Marshal` of its result and that step's "Unable to parse JSON secrets" failure (pkg/cmd/secrets.go:309-313). Fallback directory set-up (`initFallbackDir`), metadata path derivation (`controllers.MetadataFilePath`), passphrase derivation (`getPassphrase`) and `crypto.Encrypt` are not part of this model. Their results are parameters of `DownloadSecrets`.
- Three HTTP calls are parameters: `http.DownloadSecrets` (`downloadFormatted`), `http.GetProjects` (`api.projects`) and `http.GetConfigs` (`api.configsOf`).
- `SetSecrets` and `DeleteSecrets` model the request map only. The `http.SetSecrets` call they feed, its `HandleError` exit and the printing of the response (pkg/cmd/secrets.go:185-192, 240-247) are not modelled.
- The `secrets`, `secrets get` and `secrets upload` commands are only `http.GetSecrets` / `http.UploadSecrets` calls plus printing, so they are not modelled.
- Printing, logging and warnings are UI and not modelled. This includes the "has no effect" warnings of `secrets download` (pkg/cmd/secrets.go:318-323) and the final printout of `enclave setup`. There are two exceptions. `Printed(body)` models the `fmt.Println` of `--no-file` (pkg/cmd/secrets.go:332-335). `Setup` returns the environment notices it would log.
- The interaction of prompts (`survey.AskOne`, `utils.ConfirmationPrompt`) is not modelled: the answer each returns, or its error, is a parameter. The content of the selection prompts (message, options and default) is modelled as `SelectPrompt`, returned by `SelectProject`, `SelectConfig` and `Setup`. The text of the delete confirmation prompt is not modelled; `DeleteSecrets` returns only whether it was shown.
- File access (`ioutil.ReadFile`, `utils.WriteFile`, `utils.Exists`) is a parameter or is not modelled, and so are `configuration.LocalConfig`, `Get` and `Set`. `Setup` returns the map it would save.
- `utils.GetFilePath` and `filepath.Join` are parameters. Lexical path cleaning is not modelled.
- `utils.RequireValue("token", …)` is not part of this model.
- `utils.HandleError` ends the process. The model keeps only the message it is given (or the error's text) as the failure.
- The secrets-format enumeration is not part of this model. Formats are compared as (name, output file) records.
- `pkg/cmd/enclave_configs_logs.go` is request/print glue and is not modelled.
- Command and flag registration in the `init` functions is not modelled.

## Findings

| source | as written | input that shows it | evidently intended | confidence | as-written member | corrected member |
|---|---|---|---|---|---|---|
| pkg/cmd/secrets.go:166-171 | any two arguments are read as `KEY value`, even when the first is itself a `KEY=value` | `set API_KEY=123 CRYPTO_KEY=456`, the command's own help example (pkg/cmd/secrets.go:64-65), stores one secret named `API_KEY=123` with value `CRYPTO_KEY=456` | the help example sets `API_KEY` to `123` and `CRYPTO_KEY` to `456`, so two arguments are `KEY value` only when the first has no `=` | high for the help example, not executed | `SecretArgs.SetSecretsHelpExample` | `SecretArgs.SetSecretsIntended` |

=== FILE: enclave_setup.dfy ===
/** `doppler enclave setup`: choosing the project and the config to save,
    either verbatim from a flag or the environment, or from the lists the API
    returns through a selection prompt. */
module EnclaveSetup {
  import opened Wrappers
  import opened Strings

  /** Where a configuration value came from. */
  datatype ValueSource = FlagSource | EnvironmentSource | OtherSource

  datatype SourcedValue = SourcedValue(value: string, source: ValueSource)

  datatype ProjectInfo = ProjectInfo(id: string, name: string)

  datatype ConfigInfo = ConfigInfo(name: string)

  /** A selection prompt as shown to the user. */
  datatype SelectPrompt = SelectPrompt(message: string, options: seq<string>, default: Option<string>)

  /** The two configuration keys that setup saves. */
  datatype ConfigKey = EnclaveProject | EnclaveConfig

  /** What setup gets from outside: the project list, the config list of a
      project, and the answers to the two prompts (a failure is a prompt
      error). */
  datatype SetupApi = SetupApi(
    projects: Result<seq<ProjectInfo>, string>,
    configsOf: string -> Result<seq<ConfigInfo>, string>,
    projectAnswer: Result<string, string>,
    configAnswer: Result<string, string>)

  const NoPromptProject := "project must be specified via --project flag or ENCLAVE_PROJECT environment variable when using --no-prompt"
  const NoPromptConfig := "config must be specified via --config flag or ENCLAVE_CONFIG environment variable when using --no-prompt"
  const NoProjects := "you do not have access to any projects"
  const NoConfigs := "your project does not have any configs"
  const InvalidProject := "Invalid project"
  const InvalidConfig := "Invalid config"

  /** The option shown for a project: `Name (ID)`. */
  function Label(p: ProjectInfo): string
  {
    p.name + " (" + p.id + ")"
  }

  /** Whether a chosen option ends with `(ID)` of the given project. */
  predicate Matches(choice: string, p: ProjectInfo)
  {
    HasSuffix(choice, "(" + p.id + ")")
  }

  /** The project ID a chosen option stands for: that of the first project
      whose `(ID)` ends the option, or "" when none does. */
  function IdForLabel(projects: seq<ProjectInfo>, choice: string): (id: string)
    ensures
      || (exists i :: 0 <= i < |projects| && Matches(choice, projects[i]) && id == projects[i].id
            && forall j :: 0 <= j < i ==> !Matches(choice, projects[j]))
      || (id == "" && forall j :: 0 <= j < |projects| ==> !Matches(choice, projects[j]))
  {
    if projects == [] then ""
    else if Matches(choice, projects[0]) then projects[0].id
    else
      var id := IdForLabel(projects[1..], choice);
      assert forall j :: 1 <= j < |projects| ==> projects[j] == projects[1..][j - 1];
      id
  }

  /** When neither ID contains `(`, a project's option ends with `(ID)` of
      another project exactly when the two IDs are equal. */
  lemma OwnLabelMatchesOnlyOwnId(p: ProjectInfo, q: ProjectInfo)
    requires '(' !in p.id && '(' !in q.id
    ensures Matches(Label(p), q) <==> q.id == p.id
  {
    var l := Label(p);
    var n, m := |p.id|, |q.id|;
    var suffix := "(" + q.id + ")";
    assert l == p.name + " " + ("(" + p.id + ")");
    assert l[|l| - n - 2..] == "(" + p.id + ")";
    if m < n {
      var at := |l| - m - 2;
      assert l[at] == p.id[n - m - 1];
      assert l[at..][0] != suffix[0];
    } else if m > n && m + 2 <= |l| {
      var at := |l| - m - 2;
      assert l[|p.name| + 1] == '(';
      assert l[at..][m - n] == l[|p.name| + 1];
      assert suffix[m - n] == q.id[m - n - 1];
      assert q.id[m - n - 1] in q.id;
      assert l[at..] != suffix;
    } else if m == n {
      assert suffix[1..m + 1] == q.id;
      assert ("(" + p.id + ")")[1..n + 1] == p.id;
    }
  }

  /** Choosing the option of a project gives back that project's ID, provided
      no ID contains `(`. */
  lemma {:induction false} IdForOwnLabel(projects: seq<ProjectInfo>, k: nat)
    requires k < |projects|
    requires forall i :: 0 <= i < |projects| ==> '(' !in projects[i].id
    ensures IdForLabel(projects, Label(projects[k])) == projects[k].id
  {
    OwnLabelMatchesOnlyOwnId(projects[k], projects[0]);
    if projects[0].id != projects[k].id {
      IdForOwnLabel(projects[1..], k - 1);
    }
  }

  /** The index of the last project with the given ID, if any. */
  function LastWithId(projects: seq<ProjectInfo>, id: string): (r: Option<nat>)
    ensures r.Some? ==>
      && r.value < |projects| && projects[r.value].id == id
      && forall j :: r.value < j < |projects| ==> projects[j].id != id
    ensures r.None? ==> forall j :: 0 <= j < |projects| ==> projects[j].id != id
  {
    if projects == [] then None
    else
      var n := |projects| - 1;
      if projects[n].id == id then Some(n)
      else
        var r := LastWithId(projects[..n], id);
        assert forall j :: 0 <= j < n ==> projects[..n][j] == projects[j];
        r
  }

  /** The default option of the project prompt: the option of the last
      project with the previously configured ID. */
  function DefaultProjectOption(projects: seq<ProjectInfo>, prevConfiguredProject: string): Option<string>
  {
    match LastWithId(projects, prevConfiguredProject)
    case Some(i) => Some(Label(projects[i]))
    case None => None
  }

  /** The log line for a value read from the environment. */
  function EnvironmentNotice(name: string): string
  {
    "Using " + name + " from the environment. To disable this, use --no-read-env."
  }

  /** Different variables give different notices. */
  lemma EnvironmentNoticeInjective(a: string, b: string)
    ensures EnvironmentNotice(a) == EnvironmentNotice(b) ==> a == b
  {
    var na, nb := EnvironmentNotice(a), EnvironmentNotice(b);
    if na == nb {
      assert |a| == |b|;
      assert na[6..6 + |a|] == a;
      assert nb[6..6 + |b|] == b;
    }
  }

  /** The options of the project prompt, one `Name (ID)` per project in list
      order, and its default: the option of the last project with the
      previously configured ID. */
  method ProjectOptions(projects: seq<ProjectInfo>, prevConfiguredProject: string)
    returns (options: seq<string>, defaultOption: Option<string>)
    ensures |options| == |projects|
    ensures forall i :: 0 <= i < |projects| ==> options[i] == Label(projects[i])
    ensures defaultOption == DefaultProjectOption(projects, prevConfiguredProject)
  {
    options := [];
    var lastMatch := "";
    ghost var at: Option<nat> := None;
    var i := 0;
    while i < |projects|
      invariant 0 <= i <= |projects|
      invariant |options| == i
      invariant forall j :: 0 <= j < i ==> options[j] == Label(projects[j])
      invariant at == LastWithId(projects[..i], prevConfiguredProject)
      invariant at.Some? ==> at.value < i && lastMatch == Label(projects[at.value])
      invariant at.None? ==> lastMatch == ""
    {
      var option := Label(projects[i]);
      options := options + [option];
      assert projects[..i + 1][..i] == projects[..i];
      if projects[i].id == prevConfiguredProject {
        lastMatch := option;
        at := Some(i);
      }
      i := i + 1;
    }
    assert projects[..i] == projects;
    defaultOption := if lastMatch != "" then Some(lastMatch) else None;
  }

  /** The ID for the chosen option: the first project, in list order, whose
      `(ID)` ends it, or "" when there is none. */
  method ProjectIdForChoice(projects: seq<ProjectInfo>, choice: string) returns (id: string)
    ensures id == IdForLabel(projects, choice)
  {
    id := "";
    var i := 0;
    while i < |projects|
      invariant 0 <= i <= |projects|
      invariant IdForLabel(projects[i..], choice) == IdForLabel(projects, choice)
    {
      if Matches(choice, projects[i]) {
        id := projects[i].id;
        break;
      }
      assert projects[i..][1..] == projects[i + 1..];
      i := i + 1;
    }
  }

  /** The project prompt: an error instead of a prompt with `--no-prompt`;
      otherwise the prompt with the options and default of `ProjectOptions`,
      and the chosen option mapped back to an ID. */
  method SelectProject(projects: seq<ProjectInfo>, prevConfiguredProject: string, promptUser: bool, answer: Result<string, string>)
    returns (prompt: Option<SelectPrompt>, selected: Result<string, string>)
    ensures !promptUser ==> prompt.None? && selected == Failure(NoPromptProject)
    ensures promptUser ==>
      && prompt.Some? && prompt.value.message == "Select a project:"
      && |prompt.value.options| == |projects|
      && (forall i :: 0 <= i < |projects| ==> prompt.value.options[i] == Label(projects[i]))
      && prompt.value.default == DefaultProjectOption(projects, prevConfiguredProject)
    ensures promptUser && answer.Failure? ==> selected == Failure(answer.error)
    ensures promptUser && answer.Success? ==> selected == Success(IdForLabel(projects, answer.value))
  {
    var options, defaultOption := ProjectOptions(projects, prevConfiguredProject);
    if !promptUser {
      return None, Failure(NoPromptProject);
    }
    prompt := Some(SelectPrompt("Select a project:", options, defaultOption));
    if answer.Failure? {
      return prompt, Failure(answer.error);
    }
    var id := ProjectIdForChoice(projects, answer.value);
    selected := Success(id);
  }

  /** The config prompt: the config names in order, the previously configured
      config as default only when the selected project is the configured one,
      an error instead of a prompt with `--no-prompt`, and the chosen name. */
  method SelectConfig(configs: seq<ConfigInfo>, selectedConfiguredProject: bool, prevConfiguredConfig: string, promptUser: bool, answer: Result<string, string>)
    returns (prompt: Option<SelectPrompt>, selected: Result<string, string>)
    ensures !promptUser ==> prompt.None? && selected == Failure(NoPromptConfig)
    ensures promptUser ==>
      && prompt.Some? && prompt.value.message == "Select a config:"
      && |prompt.value.options| == |configs|
      && (forall i :: 0 <= i < |configs| ==> prompt.value.options[i] == configs[i].name)
      && prompt.value.default ==
           (if selectedConfiguredProject && prevConfiguredConfig != ""
               && exists i :: 0 <= i < |configs| && configs[i].name == prevConfiguredConfig
            then Some(prevConfiguredConfig) else None)
    ensures promptUser ==> selected == answer
  {
    var options: seq<string> := [];
    var defaultOption := "";
    var i := 0;
    while i < |configs|
      invariant 0 <= i <= |configs|
      invariant |options| == i
      invariant forall j :: 0 <= j < i ==> options[j] == configs[j].name
      invariant defaultOption ==
        (if selectedConfiguredProject && exists j :: 0 <= j < i && configs[j].name == prevConfiguredConfig
         then prevConfiguredConfig else "")
    {
      options := options + [configs[i].name];
      // the previous config is the default only when re-using the previous project
      if selectedConfiguredProject && configs[i].name == prevConfiguredConfig {
        defaultOption := configs[i].name;
      }
      i := i + 1;
    }

    if !promptUser {
      return None, Failure(NoPromptConfig);
    }

    prompt := Some(SelectPrompt("Select a config:", options, if defaultOption != "" then Some(defaultOption) else None));
    selected := answer;
  }

  /** The project setup settles on, or the error that stops it: the value
      itself when it comes from a flag or the environment, otherwise the
      listed project the prompt's answer names. */
  function ProjectSelection(project: SourcedValue, promptUser: bool, api: SetupApi): Result<string, string>
  {
    if project.source != OtherSource then Success(project.value)
    else if api.projects.Failure? then Failure(api.projects.error)
    else if |api.projects.value| == 0 then Failure(NoProjects)
    else if !promptUser then Failure(NoPromptProject)
    else if api.projectAnswer.Failure? then Failure(api.projectAnswer.error)
    else if IdForLabel(api.projects.value, api.projectAnswer.value) == "" then Failure(InvalidProject)
    else Success(IdForLabel(api.projects.value, api.projectAnswer.value))
  }

  /** Choosing a listed project's own option selects that project, provided
      no ID contains `(` and its ID is not empty. */
  lemma ChoosingOwnOptionSelectsIt(project: SourcedValue, promptUser: bool, api: SetupApi, k: nat)
    requires project.source == OtherSource && promptUser
    requires api.projects.Success? && k < |api.projects.value|
    requires forall i :: 0 <= i < |api.projects.value| ==> '(' !in api.projects.value[i].id
    requires api.projectAnswer == Success(Label(api.projects.value[k])) && api.projects.value[k].id != ""
    ensures ProjectSelection(project, promptUser, api) == Success(api.projects.value[k].id)
  {
    IdForOwnLabel(api.projects.value, k);
  }

  /** The config setup settles on for the selected project, or the error that
      stops it: the value itself when it comes from a flag or the
      environment, otherwise the prompt's answer from that project's list. */
  function ConfigSelection(config: SourcedValue, selectedProject: string, promptUser: bool, api: SetupApi): Result<string, string>
  {
    if config.source != OtherSource then Success(config.value)
    else if api.configsOf(selectedProject).Failure? then Failure(api.configsOf(selectedProject).error)
    else if |api.configsOf(selectedProject).value| == 0 then Failure(NoConfigs)
    else if !promptUser then Failure(NoPromptConfig)
    else if api.configAnswer.Failure? then Failure(api.configAnswer.error)
    else if api.configAnswer.value == "" then Failure(InvalidConfig)
    else Success(api.configAnswer.value)
  }

  /** The whole setup command. `project` and `config` are the values the
      command's configuration already holds (with their source), while
      `scopedProject` and `scopedConfig` are the ones saved for the scope.
      Besides what it saves, it returns the notices it logs, whether it asked
      for the project list, the project prompt it showed, which project's
      configs it asked for, and the config prompt it showed. */
  method Setup(project: SourcedValue, config: SourcedValue, scopedProject: string, scopedConfig: string, promptUser: bool, api: SetupApi)
    returns (saved: Result<map<ConfigKey, string>, string>, notices: seq<string>, projectsListed: bool,
             projectPrompt: Option<SelectPrompt>, configsListedFor: Option<string>, configPrompt: Option<SelectPrompt>)
    // the two selections are saved as soon as both succeed; the first failure stops the command
    ensures saved ==
      match ProjectSelection(project, promptUser, api)
      case Failure(e) => Failure(e)
      case Success(p) =>
        match ConfigSelection(config, p, promptUser, api)
        case Failure(e) => Failure(e)
        case Success(c) => Success(map[EnclaveProject := p, EnclaveConfig := c])
    // exactly the two enclave keys are saved
    ensures saved.Success? ==> saved.value.Keys == {EnclaveProject, EnclaveConfig}
    // a project from a flag or the environment is used verbatim, without the list
    ensures projectsListed <==> project.source == OtherSource
    ensures saved.Success? && project.source != OtherSource ==> saved.value[EnclaveProject] == project.value
    ensures project.source == OtherSource && api.projects.Failure? ==> saved == Failure(api.projects.error)
    ensures project.source == OtherSource && api.projects == Success([]) ==> saved == Failure(NoProjects)
    ensures project.source == OtherSource && api.projects.Success? && |api.projects.value| > 0 && !promptUser
      ==> saved == Failure(NoPromptProject)
    // a listed project is the one the chosen option names, and never ""
    ensures saved.Success? && project.source == OtherSource ==>
      && promptUser && api.projects.Success? && |api.projects.value| > 0 && api.projectAnswer.Success?
      && saved.value[EnclaveProject] == IdForLabel(api.projects.value, api.projectAnswer.value)
      && saved.value[EnclaveProject] != ""
    // the project prompt lists every project and offers the scope's saved
    // project as default; it is shown whenever there is a list to choose from
    ensures projectPrompt.Some? ==>
      && project.source == OtherSource && api.projects.Success?
      && |projectPrompt.value.options| == |api.projects.value|
      && (forall i :: 0 <= i < |api.projects.value| ==> projectPrompt.value.options[i] == Label(api.projects.value[i]))
      && projectPrompt.value.default == DefaultProjectOption(api.projects.value, scopedProject)
    ensures project.source == OtherSource && api.projects.Success? && |api.projects.value| > 0 && promptUser
      ==> projectPrompt.Some?
    // the config list is asked for, for the selected project, only when needed
    ensures configsListedFor.Some? ==> config.source == OtherSource
    ensures saved.Success? ==>
      configsListedFor == (if config.source == OtherSource then Some(saved.value[EnclaveProject]) else None)
    ensures saved.Success? && config.source != OtherSource ==> saved.value[EnclaveConfig] == config.value
    ensures configsListedFor.Some? && api.configsOf(configsListedFor.value).Failure?
      ==> saved == Failure(api.configsOf(configsListedFor.value).error)
    ensures configsListedFor.Some? && api.configsOf(configsListedFor.value) == Success([]) ==> saved == Failure(NoConfigs)
    ensures saved.Success? && config.source == OtherSource ==>
      && promptUser && api.configAnswer == Success(saved.value[EnclaveConfig])
      && saved.value[EnclaveConfig] != ""
    // the previous config is offered as default only when the configured project is re-used
    ensures configPrompt.Some? ==>
      && configsListedFor.Some?
      && (configPrompt.value.default.Some? ==>
            configsListedFor.value == project.value && configPrompt.value.default == Some(scopedConfig))
    // and then exactly when the scope's saved config is among the listed ones
    ensures configPrompt.Some? ==>
      && configsListedFor.Some? && api.configsOf(configsListedFor.value).Success?
      && var configs := api.configsOf(configsListedFor.value).value;
      && |configPrompt.value.options| == |configs|
      && (forall i :: 0 <= i < |configs| ==> configPrompt.value.options[i] == configs[i].name)
      && configPrompt.value.default ==
           (if configsListedFor.value == project.value && scopedConfig != ""
               && exists i :: 0 <= i < |configs| && configs[i].name == scopedConfig
            then Some(scopedConfig) else None)
    ensures configsListedFor.Some? && api.configsOf(configsListedFor.value).Success?
      && |api.configsOf(configsListedFor.value).value| > 0 && promptUser
      ==> configPrompt.Some?
    // no prompt is shown with `--no-prompt`, or when there is nothing to choose from
    ensures projectPrompt.Some? <==>
      project.source == OtherSource && api.projects.Success? && |api.projects.value| > 0 && promptUser
    ensures projectPrompt.Some? ==> projectPrompt.value.message == "Select a project:"
    ensures configPrompt.Some? <==>
      && configsListedFor.Some? && api.configsOf(configsListedFor.value).Success?
      && |api.configsOf(configsListedFor.value).value| > 0 && promptUser
    ensures configPrompt.Some? ==> configPrompt.value.message == "Select a config:"
    // the environment notices, and nothing else, in the order they are logged
    ensures notices ==
      (if project.source == EnvironmentSource then [EnvironmentNotice("ENCLAVE_PROJECT")] else [])
      + (if ProjectSelection(project, promptUser, api).Success? && config.source == EnvironmentSource
         then [EnvironmentNotice("ENCLAVE_CONFIG")] else [])
    ensures EnvironmentNotice("ENCLAVE_PROJECT") in notices <==> project.source == EnvironmentSource
    ensures saved.Success? ==> (EnvironmentNotice("ENCLAVE_CONFIG") in notices <==> config.source == EnvironmentSource)
  {
    notices, projectsListed, projectPrompt, configsListedFor, configPrompt := [], false, None, None, None;
    EnvironmentNoticeInjective("ENCLAVE_PROJECT", "ENCLAVE_CONFIG");

    var currentProject := project.value;
    var selectedProject := "";
    match project.source {
      case FlagSource =>
        selectedProject := project.value;
      case EnvironmentSource =>
        notices := notices + [EnvironmentNotice("ENCLAVE_PROJECT")];
        selectedProject := project.value;
      case OtherSource =>
        projectsListed := true;
        if api.projects.Failure? {
          return Failure(api.projects.error), notices, projectsListed, projectPrompt, configsListedFor, configPrompt;
        }
        var projects := api.projects.value;
        if |projects| == 0 {
          return Failure(NoProjects), notices, projectsListed, projectPrompt, configsListedFor, configPrompt;
        }
        var prompt, chosen := SelectProject(projects, scopedProject, promptUser, api.projectAnswer);
        projectPrompt := prompt;
        if chosen.Failure? {
          return Failure(chosen.error), notices, projectsListed, projectPrompt, configsListedFor, configPrompt;
        }
        selectedProject := chosen.value;
        if selectedProject == "" {
          return Failure(InvalidProject), notices, projectsListed, projectPrompt, configsListedFor, configPrompt;
        }
    }

    var selectedConfiguredProject := selectedProject == currentProject;
    var selectedConfig := "";
    match config.source {
      case FlagSource =>
        selectedConfig := config.value;
      case EnvironmentSource =>
        notices := notices + [EnvironmentNotice("ENCLAVE_CONFIG")];
        selectedConfig := config.value;
      case OtherSource =>
        configsListedFor := Some(selectedProject);
        var configs := api.configsOf(selectedProject);
        if configs.Failure? {
          return Failure(configs.error), notices, projectsListed, projectPrompt, configsListedFor, configPrompt;
        }
        if |configs.value| == 0 {
          return Failure(NoConfigs), notices, projectsListed, projectPrompt, configsListedFor, configPrompt;
        }
        var prompt, chosen := SelectConfig(configs.value, selectedConfiguredProject, scopedConfig, promptUser, api.configAnswer);
        configPrompt := prompt;
        if chosen.Failure? {
          return Failure(chosen.error), notices, projectsListed, projectPrompt, configsListedFor, configPrompt;
        }
        selectedConfig := chosen.value;
        if selectedConfig == "" {
          return Failure(InvalidConfig), notices, projectsListed, projectPrompt, configsListedFor, configPrompt;
        }
    }

    saved := Success(map[EnclaveProject := selectedProject, EnclaveConfig := selectedConfig]);
  }
}

=== FILE: secret_args.dfy ===
/** Argument handling of `doppler secrets set` and `doppler secrets delete`:
    turning the command-line arguments into the secret map sent to the API. */
module SecretArgs {
  import opened Wrappers
  import opened Strings

  /** A value of the request map (`map[string]interface{}`): a string for
      `set`, null for `delete`. */
  datatype SecretValue = Str(s: string) | Null

  /** The name of a `KEY=value` argument: the first piece of splitting on `=`. */
  function KeyOf(arg: string): string
  {
    Split(arg, '=')[0]
  }

  /** The value of a `KEY=value` argument: the second piece of splitting on
      `=`, or "" when there is none. */
  function ValueOf(arg: string): string
  {
    var parts := Split(arg, '=');
    if |parts| < 2 then "" else parts[1]
  }

  /** The key is exactly the text before the first `=` (all of the argument
      when it has none). */
  lemma KeyIsTextBeforeFirstEquals(arg: string)
    ensures var key := KeyOf(arg);
      && |key| <= |arg| && arg[..|key|] == key && '=' !in key
      && (|key| < |arg| ==> arg[|key|] == '=')
      && ('=' !in arg <==> key == arg)
  {
    var parts := Split(arg, '=');
    JoinSplit(arg, '=');
    SplitPiecesFree(arg, '=', 0);
    SplitCount(arg, '=');
    if |parts| >= 2 {
      assert arg == parts[0] + "=" + Join(parts[1..], "=");
      assert arg[|parts[0]|] == '=';
    }
  }

  /** The value is the text between the first and the second `=`; whatever
      follows a second `=` is dropped, and an argument without `=` has the
      empty value. */
  lemma ValueIsTextBetweenFirstTwoEquals(arg: string)
    ensures '=' !in ValueOf(arg)
    ensures '=' !in arg ==> ValueOf(arg) == ""
    ensures '=' in arg ==>
      var start := |KeyOf(arg)| + 1;
      var end := start + |ValueOf(arg)|;
      && end <= |arg| && arg[start..end] == ValueOf(arg)
      && (end < |arg| ==> arg[end] == '=')
  {
    var parts := Split(arg, '=');
    JoinSplit(arg, '=');
    SplitCount(arg, '=');
    if |parts| >= 2 {
      SplitPiecesFree(arg, '=', 1);
      var tail := Join(parts[1..], "=");
      assert arg == parts[0] + "=" + tail;
      if |parts| == 2 {
        assert tail == parts[1];
      } else {
        assert tail == parts[1] + "=" + Join(parts[2..], "=");
      }
    }
  }

  /** Parsing `KEY=value` written from a key and a value that contain no `=`
      gives back that key and that value. */
  lemma ParseFormatted(key: string, value: string)
    requires '=' !in key && '=' !in value
    ensures KeyOf(key + "=" + value) == key
    ensures ValueOf(key + "=" + value) == value
  {
    var arg := key + "=" + value;
    KeyIsTextBeforeFirstEquals(arg);
    ValueIsTextBetweenFirstTwoEquals(arg);
    assert arg[|key|] == '=';
    assert arg[|key| + 1..] == value;
  }

  /** The map that the `KEY=value` loop builds: each argument in turn assigns
      its value to its key, so a later duplicate overwrites an earlier one. */
  function Assignments(args: seq<string>): map<string, SecretValue>
  {
    if args == [] then map[]
    else
      var last := args[|args| - 1];
      Assignments(args[..|args| - 1])[KeyOf(last) := Str(ValueOf(last))]
  }

  /** The keys of the map are exactly the keys of the arguments. */
  lemma {:induction false} AssignmentsKeys(args: seq<string>)
    ensures Assignments(args).Keys == set a | a in args :: KeyOf(a)
  {
    if args != [] {
      var init := args[..|args| - 1];
      AssignmentsKeys(init);
      assert args == init + [args[|args| - 1]];
      assert (set a | a in args :: KeyOf(a))
          == (set a | a in init :: KeyOf(a)) + {KeyOf(args[|args| - 1])};
    }
  }

  /** A key is mapped to the value of the last argument that names it. */
  lemma {:induction false} AssignmentsLastWins(args: seq<string>, i: nat)
    requires i < |args|
    requires forall j :: i < j < |args| ==> KeyOf(args[j]) != KeyOf(args[i])
    ensures KeyOf(args[i]) in Assignments(args)
    ensures Assignments(args)[KeyOf(args[i])] == Str(ValueOf(args[i]))
  {
    var n := |args| - 1;
    if i < n {
      var init := args[..n];
      AssignmentsLastWins(init, i);
    }
  }

  /** Every value in the map is a string (never null). */
  lemma {:induction false} AssignmentsAreStrings(args: seq<string>)
    ensures forall k :: k in Assignments(args) ==> Assignments(args)[k].Str?
  {
    if args != [] {
      AssignmentsAreStrings(args[..|args| - 1]);
    }
  }

  /** The `KEY=value` form of `secrets set`: every argument names a key, in
      argument order, and the request map is built from them in turn. */
  method ParseAssignments(args: seq<string>) returns (keys: seq<string>, secrets: map<string, SecretValue>)
    ensures |keys| == |args|
    ensures forall i :: 0 <= i < |args| ==> keys[i] == KeyOf(args[i])
    ensures secrets == Assignments(args)
  {
    secrets := map[];
    keys := [];
    var i := 0;
    while i < |args|
      invariant 0 <= i <= |args|
      invariant |keys| == i
      invariant forall j :: 0 <= j < i ==> keys[j] == KeyOf(args[j])
      invariant secrets == Assignments(args[..i])
    {
      var arg := args[i];
      var secretArr := Split(arg, '=');
      keys := keys + [secretArr[0]];
      if |secretArr| < 2 {
        secrets := secrets[secretArr[0] := Str("")];
      } else {
        secrets := secrets[secretArr[0] := Str(secretArr[1])];
      }
      assert args[..i + 1][..i] == args[..i];
      i := i + 1;
    }
    assert args[..i] == args;
  }

  /** `secrets set`: with exactly two arguments they are `KEY value`, taken
      verbatim; otherwise every argument is `KEY=value`. Returns the key list
      (for printing, in argument order) and the request map. */
  method SetSecrets(args: seq<string>) returns (keys: seq<string>, secrets: map<string, SecretValue>)
    ensures |args| == 2 ==> keys == [args[0]] && secrets == map[args[0] := Str(args[1])]
    ensures |args| != 2 ==>
      && |keys| == |args|
      && (forall i :: 0 <= i < |args| ==> keys[i] == KeyOf(args[i]))
      && secrets == Assignments(args)
  {
    if |args| == 2 {
      var key := args[0];
      var value := args[1];
      keys := [key];
      secrets := map[key := Str(value)];
    } else {
      keys, secrets := ParseAssignments(args);
    }
  }

  /** The command's own help example, `set API_KEY=123 CRYPTO_KEY=456`, has
      two arguments, so it is taken as the key `API_KEY=123` with the value
      `CRYPTO_KEY=456` rather than as two assignments. */
  method SetSecretsHelpExample() returns (keys: seq<string>, secrets: map<string, SecretValue>)
    ensures keys == ["API_KEY=123"]
    ensures secrets == map["API_KEY=123" := Str("CRYPTO_KEY=456")]
    ensures "API_KEY" !in secrets && "CRYPTO_KEY" !in secrets
  {
    keys, secrets := SetSecrets(["API_KEY=123", "CRYPTO_KEY=456"]);
  }

  /** `secrets set` as its help text describes it: two arguments are read as
      `KEY value` only when the first is not itself a `KEY=value`. */
  method SetSecretsIntended(args: seq<string>) returns (keys: seq<string>, secrets: map<string, SecretValue>)
    ensures |args| == 2 && '=' !in args[0] ==> keys == [args[0]] && secrets == map[args[0] := Str(args[1])]
    ensures !(|args| == 2 && '=' !in args[0]) ==>
      && |keys| == |args|
      && (forall i :: 0 <= i < |args| ==> keys[i] == KeyOf(args[i]))
      && secrets == Assignments(args)
    // arguments that are all `KEY=value` are always parsed as assignments
    ensures (forall i :: 0 <= i < |args| ==> '=' in args[i]) ==>
      && |keys| == |args|
      && (forall i :: 0 <= i < |args| ==> keys[i] == KeyOf(args[i]))
      && secrets == Assignments(args)
  {
    if |args| == 2 && '=' !in args[0] {
      keys := [args[0]];
      secrets := map[args[0] := Str(args[1])];
    } else {
      keys, secrets := ParseAssignments(args);
    }
  }

  /** The assignments the help example describes: two keys, each with its value. */
  lemma HelpExampleAssignments(first: string, second: string)
    requires first == "API_KEY" + "=" + "123" && second == "CRYPTO_KEY" + "=" + "456"
    ensures '=' in first
    ensures KeyOf(first) == "API_KEY" && KeyOf(second) == "CRYPTO_KEY"
    ensures Assignments([first, second]) == map["API_KEY" := Str("123"), "CRYPTO_KEY" := Str("456")]
  {
    ParseFormatted("API_KEY", "123");
    ParseFormatted("CRYPTO_KEY", "456");
    assert first[7] == '=';
    var none: seq<string> := [];
    calc {
      Assignments([first, second]);
      { assert [first, second][..1] == [first]; }
      Assignments([first])[KeyOf(second) := Str(ValueOf(second))];
      { assert [first][..0] == none; }
      Assignments(none)[KeyOf(first) := Str(ValueOf(first))][KeyOf(second) := Str(ValueOf(second))];
      map["API_KEY" := Str("123"), "CRYPTO_KEY" := Str("456")];
    }
  }

  /** With the corrected rule the help example sets the two keys it names. */
  method SetSecretsIntendedHelpExample() returns (keys: seq<string>, secrets: map<string, SecretValue>)
    ensures keys == ["API_KEY", "CRYPTO_KEY"]
    ensures secrets == map["API_KEY" := Str("123"), "CRYPTO_KEY" := Str("456")]
  {
    var first, second := "API_KEY" + "=" + "123", "CRYPTO_KEY" + "=" + "456";
    HelpExampleAssignments(first, second);
    var args := [first, second];
    keys, secrets := SetSecretsIntended(args);
    assert keys[0] == KeyOf(args[0]) && keys[1] == KeyOf(args[1]);
  }

  /** `secrets delete`: unless `--yes` was given, the user is asked and the
      confirmation answer decides; when confirmed, every argument is mapped to null. */
  method DeleteSecrets(args: seq<string>, yes: bool, confirmed: bool)
    returns (asked: bool, request: Option<map<string, SecretValue>>)
    // the confirmation prompt is shown exactly when `--yes` is absent
    ensures asked <==> !yes
    ensures request.Some? <==> yes || confirmed
    ensures request.Some? ==>
      && request.value.Keys == set a | a in args
      && forall k :: k in request.value ==> request.value[k] == Null
  {
    asked := !yes;
    if yes || confirmed {
      var secrets: map<string, SecretValue> := map[];
      var i := 0;
      while i < |args|
        invariant 0 <= i <= |args|
        invariant secrets.Keys == set a | a in args[..i]
        invariant forall k :: k in secrets ==> secrets[k] == Null
      {
        secrets := secrets[args[i] := Null];
        assert args[..i + 1] == args[..i] + [args[i]];
        i := i + 1;
      }
      assert args[..i] == args;
      request := Some(secrets);
    } else {
      request := None;
    }
  }
}

=== FILE: secrets_download.dfy ===
/** `doppler secrets download`: how the fallback/cache flags combine, how the
    `--format` string is resolved, which checks stop the command, what is
    handed to the (external) fetch, and where the encrypted file goes. */
module SecretsDownload {
  import opened Wrappers
  import opened Strings

  type Bytes = seq<bv8>

  /** A value of the secrets-format enumeration, seen through the two methods
      the command calls on it: its name and its default output file name. */
  datatype Format = Format(name: string, outputFile: string)

  /** The enumeration as the command sees it: the list of supported formats,
      the JSON value, and the zero value a format variable starts with. */
  datatype FormatCatalog = FormatCatalog(formats: seq<Format>, json: Format, zero: Format)

  /** The boolean flags of the command, as given on the command line. */
  datatype DownloadFlags = DownloadFlags(
    noFile: bool,
    noFallback: bool,
    noCache: bool,
    fallbackReadonly: bool,
    fallbackOnly: bool,
    noExitOnWriteFailure: bool,
    format: string)

  /** The policy handed to the fallback/cache fetch. */
  datatype FetchPolicy = FetchPolicy(
    enableFallback: bool,
    enableCache: bool,
    fallbackReadonly: bool,
    fallbackOnly: bool,
    exitOnWriteFailure: bool)

  /** The arguments of the fallback/cache fetch for the JSON format. */
  datatype FetchRequest = FetchRequest(
    policy: FetchPolicy,
    fallbackPath: string,
    legacyFallbackPath: string,
    metadataPath: string,
    passphrase: string)

  /** What lies outside the command: the fallback file paths and the metadata
      path it would compute, the fetch itself, the formatted download, path
      resolution, encryption and the file write (`Some(e)` is a failed write). */
  datatype Collaborators = Collaborators(
    fallbackPaths: (string, string),
    metadataPath: string,
    fetchJson: FetchRequest -> Result<Bytes, string>,
    downloadFormatted: Format -> Result<Bytes, string>,
    filePath: string -> Result<string, string>,
    joinPath: (string, string) -> string,
    encrypt: (string, Bytes) -> Result<Bytes, string>,
    writeFile: (string, Bytes) -> Option<string>)

  /** How the command ends: with an error, by printing the body (`--no-file`),
      or by saving the encrypted body at a path. */
  datatype DownloadOutcome = Failed(message: string) | Printed(body: Bytes) | Saved(path: string, contents: Bytes)

  const InvalidFallbackPassphrase := "invalid fallback file passphrase"
  const InvalidPassphrase := "invalid passphrase"
  const InvalidDownloadPath := "Unable to parse download file path"
  const EncryptionFailed := "Unable to encrypt your secrets. No file has been written."
  const WriteFailed := "Unable to write the secrets file"

  /** The flags combine into a policy: the cache needs the fallback file, and
      a failed fallback write is fatal unless `--no-exit-on-write-failure`. */
  function ComposePolicy(flags: DownloadFlags): (p: FetchPolicy)
    ensures p.enableCache ==> p.enableFallback
    ensures p.enableFallback <==> !flags.noFallback
    ensures p.enableCache <==> !flags.noFallback && !flags.noCache
    ensures p.exitOnWriteFailure <==> !flags.noExitOnWriteFailure
    ensures p.fallbackReadonly == flags.fallbackReadonly && p.fallbackOnly == flags.fallbackOnly
  {
    var enableFallback := !flags.noFallback;
    FetchPolicy(
      enableFallback,
      enableFallback && !flags.noCache,
      flags.fallbackReadonly,
      flags.fallbackOnly,
      !flags.noExitOnWriteFailure)
  }

  /** The index of the first format with the given name, if any. */
  function FirstNamed(formats: seq<Format>, name: string): (r: Option<nat>)
    ensures r.Some? ==>
      && r.value < |formats| && formats[r.value].name == name
      && forall j :: 0 <= j < r.value ==> formats[j].name != name
    ensures r.None? ==> forall j :: 0 <= j < |formats| ==> formats[j].name != name
  {
    if formats == [] then None
    else if formats[0].name == name then Some(0)
    else match FirstNamed(formats[1..], name)
      case None => None
      case Some(i) => Some(i + 1)
  }

  /** The names of the formats, in list order. */
  function Names(formats: seq<Format>): (names: seq<string>)
  {
    seq(|formats|, i requires 0 <= i < |formats| => formats[i].name)
  }

  /** The error for an unknown format, listing every valid name. */
  function InvalidFormatMessage(formats: seq<Format>): string
  {
    "invalid format. Valid formats are " + Join(Names(formats), ", ")
  }

  /** The format the command settles on: a non-empty `--format` string picks
      the first format of that name or fails listing the valid names; an
      empty one leaves JSON when JSON output is on and the zero value
      otherwise. */
  function LookupFormat(catalog: FormatCatalog, jsonFlag: bool, formatString: string): (r: Result<Format, string>)
    ensures formatString == "" ==> r == Success(if jsonFlag then catalog.json else catalog.zero)
    ensures formatString != "" ==>
      (r.Success? <==> exists i :: 0 <= i < |catalog.formats| && catalog.formats[i].name == formatString)
    ensures formatString != "" && r.Success? ==>
      exists i :: 0 <= i < |catalog.formats| && r.value == catalog.formats[i]
        && r.value.name == formatString
        && forall j :: 0 <= j < i ==> catalog.formats[j].name != formatString
    ensures r.Failure? ==> r.error == InvalidFormatMessage(catalog.formats)
  {
    if formatString == "" then Success(if jsonFlag then catalog.json else catalog.zero)
    else match FirstNamed(catalog.formats, formatString)
      case Some(i) => Success(catalog.formats[i])
      case None => Failure(InvalidFormatMessage(catalog.formats))
  }

  /** The error message for an unknown format names every format: each name
      occurs in it at the returned offset. */
  lemma InvalidFormatMessageListsAll(formats: seq<Format>, i: nat) returns (k: nat)
    requires i < |formats|
    ensures k + |formats[i].name| <= |InvalidFormatMessage(formats)|
    ensures InvalidFormatMessage(formats)[k..k + |formats[i].name|] == formats[i].name
  {
    var prefix := "invalid format. Valid formats are ";
    var joined := Join(Names(formats), ", ");
    var at := JoinContains(Names(formats), ", ", i);
    assert InvalidFormatMessage(formats) == prefix + joined;
    k := |prefix| + at;
    assert InvalidFormatMessage(formats)[k..k + |formats[i].name|]
        == joined[at..at + |formats[i].name|];
  }

  /** The lookup loop of the command: scan the list, stop at the first
      matching name, and otherwise collect the valid names for the error. */
  method ResolveFormat(catalog: FormatCatalog, jsonFlag: bool, formatString: string)
    returns (r: Result<Format, string>)
    ensures r == LookupFormat(catalog, jsonFlag, formatString)
  {
    var format := if jsonFlag then catalog.json else catalog.zero;
    if formatString != "" {
      var formats := catalog.formats;
      var isValid := false;
      var i := 0;
      while i < |formats|
        invariant 0 <= i <= |formats|
        invariant !isValid
        invariant forall j :: 0 <= j < i ==> formats[j].name != formatString
      {
        if formats[i].name == formatString {
          format := formats[i];
          isValid := true;
          break;
        }
        i := i + 1;
      }
      if !isValid {
        var validFormatList: seq<string> := [];
        var n := 0;
        while n < |formats|
          invariant 0 <= n <= |formats|
          invariant |validFormatList| == n
          invariant forall j :: 0 <= j < n ==> validFormatList[j] == formats[j].name
        {
          validFormatList := validFormatList + [formats[n].name];
          n := n + 1;
        }
        assert validFormatList == Names(formats);
        return Failure("invalid format. Valid formats are " + Join(validFormatList, ", "));
      }
      assert FirstNamed(formats, formatString) == Some(i);
    }
    r := Success(format);
  }

  /** What the command fetched: the fallback/cache fetch when one was made,
      the formatted download otherwise. */
  function Fetched(request: Option<FetchRequest>, format: Format, env: Collaborators): Result<Bytes, string>
  {
    if request.Some? then env.fetchJson(request.value) else env.downloadFormatted(format)
  }

  /** The path the file goes to: the argument when one is given, otherwise the
      format's default file name in the current directory. */
  function OutputPath(args: seq<string>, format: Format, env: Collaborators): Result<string, string>
  {
    if |args| > 0 then
      match env.filePath(args[0])
      case Success(p) => Success(p)
      case Failure(_) => Failure(InvalidDownloadPath)
    else Success(env.joinPath(".", format.outputFile))
  }

  /** The command from flag handling to the file write. `fallbackPassphrase`
      and `passphrase` are the passphrases the command derived. Besides the
      outcome it returns the fallback/cache fetch it made (if any) and the
      policy in force once the format is known. */
  method DownloadSecrets(
    flags: DownloadFlags, jsonFlag: bool, catalog: FormatCatalog, args: seq<string>,
    fallbackPassphrase: string, passphrase: string, env: Collaborators)
    returns (outcome: DownloadOutcome, request: Option<FetchRequest>, effective: FetchPolicy)
    // an unknown format stops the command before anything is fetched
    ensures var fr := LookupFormat(catalog, jsonFlag, flags.format);
      fr.Failure? ==> outcome == Failed(fr.error) && request.None?
    // so does an empty fallback passphrase
    ensures var fr := LookupFormat(catalog, jsonFlag, flags.format);
      fr.Success? && fallbackPassphrase == "" ==> outcome == Failed(InvalidFallbackPassphrase) && request.None?
    // the fallback/cache fetch is made exactly for the JSON format
    ensures var fr := LookupFormat(catalog, jsonFlag, flags.format);
      request.Some? <==> fr.Success? && fallbackPassphrase != "" && fr.value == catalog.json
    // it gets the composed policy, and paths only for the parts that are enabled
    ensures request.Some? ==>
      var q := request.value;
      && q.policy == ComposePolicy(flags) && q.policy == effective
      && (q.fallbackPath, q.legacyFallbackPath) == (if q.policy.enableFallback then env.fallbackPaths else ("", ""))
      && q.metadataPath == (if q.policy.enableCache then env.metadataPath else "")
      && q.passphrase == fallbackPassphrase
    // any other format switches fallback and cache off
    ensures var fr := LookupFormat(catalog, jsonFlag, flags.format);
      fr.Success? && fallbackPassphrase != "" && fr.value != catalog.json ==> !effective.enableFallback && !effective.enableCache
    ensures outcome.Printed? ==>
      && flags.noFile
      && var fr := LookupFormat(catalog, jsonFlag, flags.format);
         fr.Success? && Fetched(request, fr.value, env) == Success(outcome.body)
    // a file is written only with both passphrases non-empty, at the chosen
    // path, holding the encryption of the fetched body
    ensures outcome.Saved? ==>
      && !flags.noFile && fallbackPassphrase != "" && passphrase != ""
      && var fr := LookupFormat(catalog, jsonFlag, flags.format);
      && fr.Success?
      && var body := Fetched(request, fr.value, env);
      && body.Success?
      && OutputPath(args, fr.value, env) == Success(outcome.path)
      && env.encrypt(passphrase, body.value) == Success(outcome.contents)
      && env.writeFile(outcome.path, outcome.contents).None?
    // and it is written whenever every step succeeds
    ensures var fr := LookupFormat(catalog, jsonFlag, flags.format);
      (&& fr.Success? && fallbackPassphrase != "" && Fetched(request, fr.value, env).Success?
       && !flags.noFile && OutputPath(args, fr.value, env).Success? && passphrase != ""
       && env.encrypt(passphrase, Fetched(request, fr.value, env).value).Success?
       && env.writeFile(OutputPath(args, fr.value, env).value,
                        env.encrypt(passphrase, Fetched(request, fr.value, env).value).value).None?)
      ==> outcome.Saved?
    // once the format and the fallback passphrase are settled, the outcome is
    // fixed step by step: fetch, print, path, passphrase, encryption, write
    ensures var fr := LookupFormat(catalog, jsonFlag, flags.format);
      fr.Success? && fallbackPassphrase != "" ==>
        var body := Fetched(request, fr.value, env);
        && (body.Failure? ==> outcome == Failed(body.error))
        && (body.Success? && flags.noFile ==> outcome == Printed(body.value))
        && (body.Success? && !flags.noFile ==>
              var path := OutputPath(args, fr.value, env);
              && (path.Failure? ==> outcome == Failed(InvalidDownloadPath))
              && (path.Success? && passphrase == "" ==> outcome == Failed(InvalidPassphrase))
              && (path.Success? && passphrase != "" ==>
                    var enc := env.encrypt(passphrase, body.value);
                    && (enc.Failure? ==> outcome == Failed(EncryptionFailed))
                    && (enc.Success? ==>
                          outcome == (if env.writeFile(path.value, enc.value).Some? then Failed(WriteFailed)
                                      else Saved(path.value, enc.value)))))
    // an empty file passphrase or a failed encryption writes nothing
    ensures passphrase == "" ==> !outcome.Saved?
    ensures var fr := LookupFormat(catalog, jsonFlag, flags.format);
      fr.Success? && fallbackPassphrase != "" && Fetched(request, fr.value, env).Success? && !flags.noFile
      && OutputPath(args, fr.value, env).Success? && passphrase != ""
      && env.encrypt(passphrase, Fetched(request, fr.value, env).value).Failure?
      ==> outcome == Failed(EncryptionFailed)
  {
    var policy := ComposePolicy(flags);
    effective := policy;
    request := None;

    var resolved := ResolveFormat(catalog, jsonFlag, flags.format);
    if resolved.Failure? {
      return Failed(resolved.error), None, policy;
    }
    var format := resolved.value;

    if fallbackPassphrase == "" {
      return Failed(InvalidFallbackPassphrase), None, policy;
    }

    var fetched: Result<Bytes, string>;
    if format == catalog.json {
      var fallbackPath, legacyFallbackPath, metadataPath := "", "", "";
      if policy.enableFallback {
        fallbackPath, legacyFallbackPath := env.fallbackPaths.0, env.fallbackPaths.1;
      }
      if policy.enableCache {
        metadataPath := env.metadataPath;
      }
      var fetch := FetchRequest(policy, fallbackPath, legacyFallbackPath, metadataPath, fallbackPassphrase);
      request := Some(fetch);
      fetched := env.fetchJson(fetch);
    } else {
      // the fallback file is not supported for the other formats
      policy := policy.(enableFallback := false, enableCache := false);
      fetched := env.downloadFormatted(format);
    }
    effective := policy;
    if fetched.Failure? {
      return Failed(fetched.error), request, policy;
    }
    var body := fetched.value;

    outcome := Deliver(body, flags.noFile, args, format, passphrase, env);
  }

  /** What the command does with a fetched body: print it (`--no-file`), or
      resolve the path, check the passphrase, encrypt and write. */
  method Deliver(body: Bytes, noFile: bool, args: seq<string>, format: Format, passphrase: string, env: Collaborators)
    returns (outcome: DownloadOutcome)
    ensures noFile ==> outcome == Printed(body)
    ensures !noFile ==>
      var path := OutputPath(args, format, env);
      && (path.Failure? ==> outcome == Failed(InvalidDownloadPath))
      && (path.Success? && passphrase == "" ==> outcome == Failed(InvalidPassphrase))
      && (path.Success? && passphrase != "" ==>
            var enc := env.encrypt(passphrase, body);
            && (enc.Failure? ==> outcome == Failed(EncryptionFailed))
            && (enc.Success? ==>
                  outcome == (if env.writeFile(path.value, enc.value).Some? then Failed(WriteFailed)
                              else Saved(path.value, enc.value))))
  {
    if noFile {
      return Printed(body);
    }

    var filePath: string;
    if |args| > 0 {
      var resolvedPath := env.filePath(args[0]);
      if resolvedPath.Failure? {
        return Failed(InvalidDownloadPath);
      }
      filePath := resolvedPath.value;
    } else {
      filePath := env.joinPath(".", format.outputFile);
    }

    if passphrase == "" {
      return Failed(InvalidPassphrase);
    }

    var encrypted := env.encrypt(passphrase, body);
    if encrypted.Failure? {
      return Failed(EncryptionFailed);
    }

    var written := env.writeFile(filePath, encrypted.value);
    if written.Some? {
      return Failed(WriteFailed);
    }
    outcome := Saved(filePath, encrypted.value);
  }
}

=== FILE: strings.dfy ===
/** The few operations of Go's `strings` package that the commands rely on:
    `Split` on a one-character separator, `Join` and `HasSuffix`. */
module Strings {

  /** `strings.Split(s, string(sep))`: the pieces of `s` between occurrences of
      `sep`; the empty string splits into one empty piece. */
  function Split(s: string, sep: char): (parts: seq<string>)
    ensures |parts| >= 1
  {
    if s == [] then [""]
    else
      var rest := Split(s[1..], sep);
      if s[0] == sep then [""] + rest
      else [[s[0]] + rest[0]] + rest[1..]
  }

  /** `strings.Join(parts, sep)`. */
  function Join(parts: seq<string>, sep: string): string
  {
    if |parts| == 0 then ""
    else if |parts| == 1 then parts[0]
    else parts[0] + sep + Join(parts[1..], sep)
  }

  /** `strings.HasSuffix(s, suffix)`. */
  predicate HasSuffix(s: string, suffix: string)
  {
    |suffix| <= |s| && s[|s| - |suffix|..] == suffix
  }

  /** Splitting and re-joining with the same separator gives back the input. */
  lemma {:induction false} JoinSplit(s: string, sep: char)
    ensures Join(Split(s, sep), [sep]) == s
  {
    if s != [] {
      var rest := Split(s[1..], sep);
      JoinSplit(s[1..], sep);
      if s[0] == sep {
        assert Split(s, sep) == [""] + rest;
        assert ([""] + rest)[1..] == rest;
      } else if |rest| == 1 {
        assert Split(s, sep) == [[s[0]] + rest[0]];
      } else {
        var parts := Split(s, sep);
        assert parts == [[s[0]] + rest[0]] + rest[1..];
        assert parts[1..] == rest[1..];
        assert Join(rest, [sep]) == rest[0] + [sep] + Join(rest[1..], [sep]);
      }
    }
  }

  /** No piece of a split contains the separator. */
  lemma {:induction false} SplitPiecesFree(s: string, sep: char, i: nat)
    requires i < |Split(s, sep)|
    ensures sep !in Split(s, sep)[i]
  {
    if s != [] {
      var rest := Split(s[1..], sep);
      if s[0] == sep {
        if i > 0 { SplitPiecesFree(s[1..], sep, i - 1); }
      } else if i == 0 {
        SplitPiecesFree(s[1..], sep, 0);
      } else {
        SplitPiecesFree(s[1..], sep, i);
      }
    }
  }

  /** A string without the separator splits into itself alone; one with it
      splits into at least two pieces. */
  lemma {:induction false} SplitCount(s: string, sep: char)
    ensures sep !in s ==> Split(s, sep) == [s]
    ensures sep in s ==> |Split(s, sep)| >= 2
  {
    if s != [] {
      SplitCount(s[1..], sep);
      if s[0] != sep && sep !in s[1..] {
        assert [s[0]] + s[1..] == s;
      }
    }
  }

  /** Every joined part occurs in the joined string, at the returned offset. */
  lemma {:induction false} JoinContains(parts: seq<string>, sep: string, i: nat) returns (k: nat)
    requires i < |parts|
    ensures k + |parts[i]| <= |Join(parts, sep)|
    ensures Join(parts, sep)[k..k + |parts[i]|] == parts[i]
  {
    var j := Join(parts, sep);
    if |parts| == 1 {
      k := 0;
      assert j == parts[0];
    } else if i == 0 {
      k := 0;
      assert j == parts[0] + (sep + Join(parts[1..], sep));
    } else {
      var k' := JoinContains(parts[1..], sep, i - 1);
      var tail := Join(parts[1..], sep);
      var head := parts[0] + sep;
      assert j == head + tail;
      k := |head| + k';
      assert j[k..k + |parts[i]|] == tail[k'..k' + |parts[i]|];
    }
  }
}

=== FILE: wrappers.dfy ===
/** Failure-carrying values used for the CLI's error paths (a process-exiting
    error handler becomes a `Failure` carrying the message it would print). */
module Wrappers {

  datatype Option<+T> = None | Some(value: T)

  datatype Result<+R, +E> = Success(value: R) | Failure(error: E)
}
